=== FILE: README.md ===
# qr-attendance check-in core in Dafny

This project models the attendance core of the qr-attendance Flask
application (`app.py`):

- how a teacher generates a session: a six-character code drawn from A–Z and
  0–9, and an expiry 30 minutes after creation;
- the text a session's QR code carries,
  `session:<id>;subject:<subject id>;code:<code>`;
- the whole of `mark_attendance`:
  - both form fields are stripped, and a non-blank QR field wins over the
    typed code;
  - the QR field is decoded with `split(';')`, `split(':', 1)` and `dict()`,
    and the session id is read with `int()`;
  - the session is looked up by id, or by code when the QR field is blank;
  - an expired session is refused, and so is a second check-in for the same
    (student, session) pair;
  - otherwise one attendance record is inserted;
  - each path ends in its own message.

The database tables are values:

- a `Sessions.Store` is the `attendance_sessions` rows in insertion order;
- an `AttendanceLedger.Ledger` is the `attendance` rows.

A `SELECT … fetchone()` becomes "the first row in store order that matches".
Request handling is a pure function from the tables and the form fields to
an `Outcome` (the flashed message) and the new ledger. The `Attendance`
module runs any serial sequence of generate and check-in requests. It proves
that the serial system keeps every (student, session) pair to at most one
record. It also proves that every record belongs to a stored session which
had not expired when the record was written, and that the record carries
that session's subject.

Modules:

| module | contents |
|---|---|
| `Wrappers` | `Option`, `Result` |
| `Text` | Python's `str.strip()`, `str.split(sep)`, `str.split(sep, 1)`, decimal rendering and `int()` on digit strings |
| `CodeGen` | the code alphabet and code generation from six draws |
| `Sessions` | session rows, lookup by id and by code, `generate_session` |
| `AttendanceLedger` | attendance rows and the one-record-per-pair invariant |
| `Payload` | the QR text: encoding, decoding, and the round trip between them |
| `Verifier` | `mark_attendance`: resolution, expiry, duplicates, insert, messages |
| `Attendance` | the serial state machine and its invariant |

## Model

| member | source | states |
|---|---|---|
| Text.Trim | app.py:202-203 | The result is a contiguous slice of the input, only whitespace is removed at either end, and neither end of the result is whitespace (Python's `str.isspace` set). |
| Text.TrimBlank | app.py:206 | A stripped field is empty, and so counts as absent, exactly when it held nothing but whitespace. |
| Text.TrimUnchanged | app.py:202-203 | Text whose ends are not whitespace is left unchanged by strip. |
| Text.Split | app.py:208 | Splitting on `;` gives at least one part, no part holds the separator, and joining the parts back with the separator gives the input. |
| Text.SplitJoin | app.py:208 | Splitting the join of separator-free parts gives back exactly those parts (split and join are inverse). |
| Text.SplitNoSeparator | app.py:208 | Text without the separator splits into the single part equal to itself. |
| Text.SplitAfterPart | app.py:208 | Splitting `p + ";" + t` with `p` free of the separator gives `p` followed by the parts of `t`. |
| Text.SplitFirst | app.py:208 | `split(':', 1)` yields a pair exactly when the part has a colon; the key is the text before the first colon, and key, colon and value rebuild the part. |
| Text.SplitFirstJoin | app.py:208 | Splitting `k + ":" + v` at the first colon, when `k` has no colon, gives back `(k, v)` even if `v` holds colons. |
| Text.ToDecimal | app.py:165 | Rendering a number gives a non-empty string of ASCII digits, with no leading zero unless the number is 0. |
| Text.ParseNat | app.py:209 | `int()` of a field succeeds exactly when the text is a non-empty run of ASCII digits. Which number it returns is fixed by `ParseToDecimal`, `ParseNatLeadingZero` and `ToDecimalParse` together. |
| Text.ParseToDecimal | app.py:209 | Parsing the decimal rendering of `n` gives back `n`. |
| Text.ParseNatLeadingZero | app.py:209 | A leading zero does not change what `int()` reads: `0` followed by digit text parses to the same number as the digit text, so `007` is 7. |
| Text.ToDecimalParse | app.py:165-209 | Digit text without a leading zero (or `0` itself) parses to a number whose decimal rendering is that text again. |
| Text.JoinContains | app.py:208 | Every character of every part occurs in the joined text, so a character absent from the text is absent from every part it splits into. |
| CodeGen.GenerateCode | app.py:144-145 | The generated code has length 6, every character is an uppercase ASCII letter or a digit, and character `i` is the alphabet entry the `i`-th draw selects. |
| CodeGen.GenerateCodeOnto | app.py:145 | Every six-character code over A–Z and 0–9 is produced by some sequence of draws, so every code is possible. |
| CodeGen.GenerateCodeInjective | app.py:145 | Different draws give different codes, so no code is favoured by the mapping. |
| Sessions.IsExpired | app.py:213 | A session without an expiry never expires (the truthiness test on the column). A session with an expiry is still valid at that very instant and expires only once now is past it (the strict `<`). |
| Sessions.ExpiredStaysExpired | app.py:227 | Expiry is final: a session expired at some time is expired at every later time. |
| Sessions.FindById | app.py:210-211 | The lookup returns nothing exactly when no stored session has the id; otherwise it returns the first stored session with that id. |
| Sessions.FindByCode | app.py:223-224 | The lookup returns nothing exactly when no stored session has the code; otherwise it returns the first (oldest) stored session with that code. |
| Sessions.CreateSession | app.py:142-151 | The store grows by exactly one row and older rows are unchanged. The new row's id is positive and above every id in use. It carries the teacher and subject, holds a valid six-character code, was created now, and expires exactly 30 minutes later, strictly after creation. |
| Sessions.CreatePreservesUniqueIds | app.py:149-151 | Creating a session keeps session ids distinct. |
| Sessions.FindByIdStored | app.py:210-211 | With distinct ids, looking up a stored session's id finds that session. |
| Sessions.FindByIdAppend | app.py:210-211 | Inserting a row does not change the lookup result for an id that was already present. |
| Sessions.CreatedSessionVisible | app.py:149-151 | A new session is found by its id at once. It is found by its code exactly when no older session holds the same code. |
| AttendanceLedger.CountPositive | app.py:215-216 | A (student, session) pair has a record exactly when its record count is positive. |
| AttendanceLedger.UniqueAtMostOne | app.py:215-219 | In a ledger without duplicate pairs, every (student, session) pair is counted at most once. |
| AttendanceLedger.NotUniqueWitness | app.py:215-219 | A ledger with a duplicate pair yields a (student, session) pair counted more than once. |
| AttendanceLedger.UniqueIffAtMostOne | app.py:215-219 | A ledger has no two records for one pair exactly when every pair's count is at most one (both directions). |
| AttendanceLedger.AppendPreservesUnique | app.py:229-233 | Appending a record for a pair that has none keeps the ledger free of duplicates. |
| Payload.Pairs | app.py:208 | Turning the parts into key/value pairs fails exactly when some part lacks a colon. Otherwise pair `i` is part `i` split at its first colon. |
| Payload.ToDictKeys | app.py:208 | A key is in the built dictionary exactly when some pair has that key. |
| Payload.ToDictLastWins | app.py:208 | When a key is repeated, the dictionary holds the value of the last pair with that key. |
| Payload.SessionLookup | app.py:208-209 | The dictionary built from the parts answers `get('session', '0')` with `SessionValue` of the parts: the value after `session:` in the last part that starts with it, or `0` when no part does. |
| Payload.Decode | app.py:208-209 | Decoding fails with a missing-colon error exactly when some `;`-part lacks a colon. It succeeds exactly when, in addition, `SessionValue` of the parts is a decimal number, and the id is then that number. The dictionary's `session` entry, with default `0`, is that same value. On success the dictionary is the one built from the pairs of all parts (`ToDict` of `Pairs`), whose keys and values `ToDictKeys` and `ToDictLastWins` describe. |
| Payload.Encode | app.py:165 | The QR text opens with `session:`, the session id reads back from the digits that follow, and the session's code is the tail of the text. |
| Payload.EncodeParts | app.py:165 | The QR text splits on `;` into exactly the three parts `session:<id>`, `subject:<subject id>` and `code:<code>`. |
| Payload.DecodeEncode | app.py:165-209 | For a code without `;`, decoding the QR text rendered for a session gives exactly the three fields `session`, `subject` and `code`. The session id is the session's id, the subject field parses back to its subject, and the code comes back unchanged. |
| Payload.DecodeWithoutSessionKey | app.py:208-209 | A well-formed payload (every `;`-part has a colon) with no `session:` part decodes to session id 0, the `get` default. |
| Payload.DecodeLastSessionPart | app.py:208-209 | With several `session:` parts the last one decides. A non-numeric value in that part is rejected. |
| Payload.DecodeRejectsNoColon | app.py:208 | Any text without a colon is rejected as malformed, because its first part cannot be split into a key and a value. |
| Verifier.ScannedId | app.py:208-221 | The QR field yields an id exactly when it decodes and the id fits SQLite's signed 64-bit integer, and the id it yields is the decoded session id. A larger id raises an overflow inside the `try`, which is reported as invalid QR content. |
| Verifier.Resolve | app.py:202-224 | Each resolution is characterised exactly: both fields blank; QR undecodable; decoded id unknown; QR blank and code unknown; or the first session with the decoded id (QR path) or the typed code (code path). |
| Verifier.Admit | app.py:212-219 | For a found session: "session expired" exactly when it is expired; "already marked" exactly when it is unexpired and the student has a record for it; otherwise the path's success message, with exactly one record (student, session's subject, session id, now) appended. The ledger is unchanged in every other case. |
| Verifier.Decide | app.py:206-234 | Once resolved, each message corresponds exactly to one case: both fields blank or an unknown id, an undecodable payload, an unknown code, expiry, an existing record, or success. Success appends exactly one record stamped now, and the success message names the field that was used. |
| Verifier.ResolvedIsStored | app.py:210-224 | A resolved session is one of the stored sessions. |
| Verifier.CheckIn | app.py:198-234 | The ledger changes only on success, and then by exactly one appended record. That record is for this student, stamped now, for a pair without a prior record, and belongs to a stored unexpired session whose subject it carries. |
| Verifier.CheckInPreservesUnique | app.py:215-233 | A check-in never creates a second record for a (student, session) pair. |
| Verifier.QrTakesPrecedence | app.py:206-222 | A non-blank QR field decides the check-in alone. The code field makes no difference and no code-path message can appear. |
| Verifier.CodeWhenQrBlank | app.py:206-222 | A QR field that strips to nothing behaves like an absent one, and no QR-path message can appear. |
| Verifier.NoDataIff | app.py:206-234 | "No data provided" arises exactly when both fields are blank, or when the QR text decodes to an id within SQLite's integer range that no session has. |
| Verifier.InvalidQrIff | app.py:207-221 | "Invalid QR content" arises exactly when the non-blank QR field fails to decode or its id exceeds SQLite's integer range. |
| Verifier.InvalidCodeIff | app.py:222-226 | "Invalid code" arises exactly when the QR field is blank and no session has the stripped code. |
| Verifier.ExpiredIff | app.py:213-228 | "Session expired" arises exactly when the resolved session has an expiry strictly before now. An expiry equal to now is accepted, and a session without an expiry never expires. |
| Verifier.AlreadyMarkedIff | app.py:215-231 | "Already marked" arises exactly when the resolved session is unexpired and the student already has a record for it. |
| Verifier.MarkedIff | app.py:218-233 | Success happens exactly when the resolved session is unexpired and the student has no record for it. The ledger then gains exactly (student, session's subject, session id, now), and the message says "via QR" exactly when the QR field was used. |
| Verifier.CheckInIdempotent | app.py:215-219 | Repeating a check-in changes nothing further: after a success the repeat is "already marked", and any other outcome repeats unchanged. |
| Verifier.TrimValidCode | app.py:202 | A generated code is unchanged by strip. |
| Verifier.ScanResolves | app.py:208-211 | With distinct ids, scanning the QR text of a stored session with a valid code and an id in SQLite's range resolves to that very session by QR, whatever the code field holds. |
| Verifier.TypedCodeResolves | app.py:222-224 | Typing a stored session's code, with the QR field blank and no older session holding that code, resolves to that session. |
| Attendance.Step | app.py:142-233 | Generating a session appends exactly one session and leaves the ledger unchanged. A check-in leaves the sessions unchanged and appends at most one record, keeping the existing ones. |
| Attendance.Run | app.py:142-233 | Over any serial sequence of requests both tables are append-only, and the ledger grows by at most one record per request. |
| Attendance.StepPreservesValid | app.py:142-234 | Each request keeps four things true: session ids distinct, sessions well formed, at most one record per pair, and every record backed by a stored session that carries its subject and was unexpired when the record was written. |
| Attendance.RunPreservesValid | app.py:142-234 | Any serial sequence of requests keeps that invariant. |
| Attendance.AtMostOneRecordPerPair | app.py:215-233 | Starting from empty tables, after any serial sequence of requests each (student, session) pair has at most one attendance record. |
| Attendance.RecordMatchesSession | app.py:232 | In a valid state every record's session is found by id, and its subject is the record's subject. |
| Attendance.NoRecordForNewId | app.py:215-216 | In a valid state nobody has a record for an id above every stored session id, so a new session starts with no attendance. |
| Attendance.FreshSessionByCode | app.py:146-233 | Typing a new session's code succeeds when the check-in comes at most 30 minutes after creation, adding exactly one record. It is "session expired" after that, with the ledger unchanged. Both cases require that no older session holds the same code. |
| Attendance.FreshSessionResolves | app.py:145-224 | A new session's code, typed with the QR field blank, resolves to that new session when no older session holds the same code. |

## Left out

- HTTP routing, login and roles, flash messages and redirects: the outcome is returned as an `Outcome` value.
- Other routes: registration, subjects, dashboards, the CSV export and `export_session` are outside the core.
- SQLite I/O and the schema: tables are sequences, reads take the first matching row, and writes append.
- Rendering the QR image (`qrcode.make`, PNG bytes) is left out. Only the text it encodes is modelled.
- The `serve_qr` lookup restricted to the teacher's own sessions is left out. `Payload.Encode` takes the session row.
- `secrets.choice` randomness: the six picks are a `CodeGen.Draws` parameter, and the uniformity of the draws is not modelled.
- Wall-clock time: `utcnow()` is an integer count of microseconds, passed in as `now`. That is the resolution of the ISO-8601 strings `isoformat()` writes. Comparing those strings becomes comparing integers. The two orders agree for UTC timestamps with four-digit years, including when `isoformat()` drops a zero fraction, because a shorter string that is a prefix of a longer one sorts first.
- Sessions.CreateSession: the two `utcnow()` calls in `generate_session` are taken as one instant, so the expiry is exactly 30 minutes after creation.
- Concurrency: two simultaneous check-ins could both pass the duplicate test, because the schema has no unique constraint. Uniqueness is proved for serial requests only.
- Text.ParseNat: accepts only non-empty ASCII digit strings. Python's `int()` also accepts a sign, surrounding whitespace, underscores and non-ASCII digits. A payload using those forms is reported as invalid here, whereas the source would look such a session up. Since Python 3.11 (and 3.10.7) `int()` also refuses text of more than 4300 digits, leading zeros included, so the source reports such a payload as invalid QR content; the model has no digit limit and reads it as a number (one that exceeds SQLite's range, and so is still invalid QR content, unless leading zeros make up the excess).
- Verifier.InvalidQrIff: exceptions inside the `try` other than a malformed payload, a non-numeric id and a 64-bit overflow are left out (database errors, for instance). Each of those would also give "invalid QR content".
- Sessions.CreateSession: `subject_id` is raw form text that SQLite stores as an integer only when it is numeric. The model takes subject ids as already-validated natural numbers.
- Session ids are natural numbers above every id in use, as `AUTOINCREMENT` gives for a table that is never deleted from. The attendance row's own id is not modelled.
- The `subject` and `code` fields of a scanned payload are decoded but, as in the source, never checked against the session.
- A well-formed payload whose id matches no session ends in "No data provided", because the QR branch falls through to the final message. The model follows that code rather than a dedicated "session not found" message.
- An empty `expires_at` counts as no expiry (`Option.None`), matching the truthiness test on the column.

=== FILE: attendance.dfy ===
/** The attendance system as a serial state machine: teachers generate
    sessions and students check in, one request after another. Whatever the
    sequence of requests, the ledger never holds two records for the same
    (student, session) pair, and every record belongs to a stored session
    whose subject it carries and which had not expired when it was written. */
module Attendance {
  import opened Wrappers
  import opened Text
  import opened CodeGen
  import opened Sessions
  import opened AttendanceLedger
  import opened Verifier

  /** The two tables the core reads and writes. */
  datatype State = State(sessions: Store, ledger: Ledger)

  /** One request: generate_session by a teacher, or mark_attendance by a student. */
  datatype Event =
    | Generate(teacherId: nat, subjectId: nat, draws: Draws, now: int)
    | Mark(studentId: nat, codeField: string, qrField: string, now: int)

  /** Fresh database: both tables empty. */
  const Initial: State := State([], [])

  /** Serve one request. Generating a session appends one session and
      leaves the ledger alone; a check-in leaves the sessions alone and
      appends at most one record. */
  function Step(st: State, e: Event): (r: State)
    ensures e.Generate? ==> |r.sessions| == |st.sessions| + 1 && r.sessions[..|st.sessions|] == st.sessions
    ensures e.Generate? ==> r.ledger == st.ledger
    ensures e.Mark? ==> r.sessions == st.sessions
    ensures e.Mark? ==> |st.ledger| <= |r.ledger| <= |st.ledger| + 1 && r.ledger[..|st.ledger|] == st.ledger
  {
    match e
    case Generate(teacherId, subjectId, draws, now) =>
      State(CreateSession(st.sessions, teacherId, subjectId, draws, now), st.ledger)
    case Mark(studentId, codeField, qrField, now) =>
      var response := CheckIn(st.sessions, st.ledger, studentId, codeField, qrField, now);
      if response.outcome.IsMarked() then
        State(st.sessions, response.ledger)
      else
        // the same ledger as response.ledger (CheckIn leaves it unchanged on
        // every unmarked outcome); the case split keeps the proof cheap
        State(st.sessions, st.ledger)
  }

  /** Serve the requests in order. Both tables are append-only, and each
      request adds at most one record. */
  function Run(st: State, events: seq<Event>): (r: State)
    ensures |st.sessions| <= |r.sessions| && r.sessions[..|st.sessions|] == st.sessions
    ensures |st.ledger| <= |r.ledger| <= |st.ledger| + |events| && r.ledger[..|st.ledger|] == st.ledger
    decreases |events|
  {
    if |events| == 0 then st else Run(Step(st, events[0]), events[1..])
  }

  /** A session as generate_session writes it. */
  predicate WellFormed(s: Session) {
    && s.id > 0
    && ValidCode(s.code)
    && s.expiresAt == Some(s.createdAt + ExpiryWindow)
  }

  /** The invariant the serial system keeps. */
  predicate Valid(st: State) {
    && UniqueIds(st.sessions)
    && (forall i :: 0 <= i < |st.sessions| ==> WellFormed(st.sessions[i]))
    && Unique(st.ledger)
    && (forall k :: 0 <= k < |st.ledger| ==> Backed(st.sessions, st.ledger[k]))
  }

  /** Every request keeps the invariant. */
  lemma StepPreservesValid(st: State, e: Event)
    requires Valid(st)
    ensures Valid(Step(st, e))
  {
    match e
    case Generate(teacherId, subjectId, draws, now) =>
      var store := CreateSession(st.sessions, teacherId, subjectId, draws, now);
      CreatePreservesUniqueIds(st.sessions, teacherId, subjectId, draws, now);
      forall k | 0 <= k < |st.ledger|
        ensures Backed(store, st.ledger[k])
      {
        assert Backed(st.sessions, st.ledger[k]);
        var i :| 0 <= i < |st.sessions| && st.sessions[i].id == st.ledger[k].sessionId
                 && st.sessions[i].subjectId == st.ledger[k].subjectId
                 && !IsExpired(st.sessions[i], st.ledger[k].markedAt);
        assert store[i] == st.sessions[i];
      }
    case Mark(studentId, codeField, qrField, now) =>
      var r := CheckIn(st.sessions, st.ledger, studentId, codeField, qrField, now);
      CheckInPreservesUnique(st.sessions, st.ledger, studentId, codeField, qrField, now);
      if r.outcome.IsMarked() {
        forall k | 0 <= k < |r.ledger|
          ensures Backed(st.sessions, r.ledger[k])
        {
          if k < |st.ledger| {
            assert r.ledger[k] == r.ledger[..|st.ledger|][k];
          }
        }
      }
  }

  /** Any serial sequence of requests keeps the invariant. */
  lemma {:induction false} RunPreservesValid(st: State, events: seq<Event>)
    requires Valid(st)
    ensures Valid(Run(st, events))
    decreases |events|
  {
    if |events| > 0 {
      StepPreservesValid(st, events[0]);
      RunPreservesValid(Step(st, events[0]), events[1..]);
    }
  }

  /** The central guarantee: starting from empty tables, after any serial
      sequence of requests each (student, session) pair has at most one
      attendance record. */
  lemma AtMostOneRecordPerPair(events: seq<Event>)
    ensures forall st: nat, se: nat :: Count(Run(Initial, events).ledger, st, se) <= 1
  {
    RunPreservesValid(Initial, events);
    UniqueIffAtMostOne(Run(Initial, events).ledger);
  }

  /** In a valid state every record's session is found by its id, and the
      record carries that session's subject. */
  lemma RecordMatchesSession(st: State, k: nat)
    requires Valid(st) && k < |st.ledger|
    ensures FindById(st.sessions, st.ledger[k].sessionId).Some?
    ensures FindById(st.sessions, st.ledger[k].sessionId).value.subjectId == st.ledger[k].subjectId
  {
    assert Backed(st.sessions, st.ledger[k]);
    var i :| 0 <= i < |st.sessions| && st.sessions[i].id == st.ledger[k].sessionId
             && st.sessions[i].subjectId == st.ledger[k].subjectId
             && !IsExpired(st.sessions[i], st.ledger[k].markedAt);
    FindByIdStored(st.sessions, i);
  }

  /** In a valid state no student has a record for an id larger than every
      stored session's id. */
  lemma NoRecordForNewId(st: State, studentId: nat, id: nat)
    requires Valid(st)
    requires forall j :: 0 <= j < |st.sessions| ==> st.sessions[j].id < id
    ensures !HasRecord(st.ledger, studentId, id)
  {
  }

  /** A freshly generated session, checked into with its code by any
      student: marked when the check-in comes no later than 30 minutes after
      creation, expired when it comes later, provided no older session
      happens to hold the same code. */
  lemma FreshSessionByCode(st: State, teacherId: nat, subjectId: nat, draws: Draws, t0: int, studentId: nat, t: int)
    requires Valid(st)
    requires forall j :: 0 <= j < |st.sessions| ==> st.sessions[j].code != GenerateCode(draws)
    ensures var store := CreateSession(st.sessions, teacherId, subjectId, draws, t0);
            var r := CheckIn(store, st.ledger, studentId, GenerateCode(draws), [], t);
            && (t <= t0 + ExpiryWindow ==>
                  (r.outcome == CodeMarked
                   && r.ledger == st.ledger + [Record(studentId, subjectId, store[|st.sessions|].id, t)]))
            && (t > t0 + ExpiryWindow ==> r.outcome == Expired && r.ledger == st.ledger)
  {
    var store := CreateSession(st.sessions, teacherId, subjectId, draws, t0);
    var code := GenerateCode(draws);
    NoRecordForNewId(st, studentId, store[|st.sessions|].id);
    FreshSessionResolves(st.sessions, teacherId, subjectId, draws, t0);
    MarkedIff(store, st.ledger, studentId, code, [], t);
    ExpiredIff(store, st.ledger, studentId, code, [], t);
  }

  /** The typed code of a new session whose code no older session holds
      resolves to that session. */
  lemma FreshSessionResolves(sessions: Store, teacherId: nat, subjectId: nat, draws: Draws, t0: int)
    requires forall j :: 0 <= j < |sessions| ==> sessions[j].code != GenerateCode(draws)
    ensures var store := CreateSession(sessions, teacherId, subjectId, draws, t0);
            Resolve(store, GenerateCode(draws), []) == Resolved(store[|sessions|], ByCode)
  {
    var store := CreateSession(sessions, teacherId, subjectId, draws, t0);
    var code := GenerateCode(draws);
    assert forall j :: 0 <= j < |sessions| ==> store[j] == sessions[j];
    TrimValidCode(code);
    TypedCodeResolves(store, |sessions|, code);
  }
}

=== FILE: codegen.dfy ===
/** The session code generator: six characters, each drawn independently by
    secrets.choice from the upper-case letters followed by the digits. The
    random source is not modelled; its six draws are a parameter. */
module CodeGen {

  const CodeLength: nat := 6

  /** The n consecutive characters starting at first. */
  function CharRange(first: char, n: nat): (r: string)
    requires first as int + n <= 0xD800
    ensures |r| == n
    ensures forall i :: 0 <= i < n ==> r[i] as int == first as int + i
  {
    if n == 0 then [] else CharRange(first, n - 1) + [(first as int + n - 1) as char]
  }

  /** string.ascii_uppercase */
  const Uppercase: string := CharRange('A', 26)

  /** string.digits */
  const Digits: string := CharRange('0', 10)

  /** The alphabet a code is drawn from, in the order secrets.choice indexes it. */
  const Alphabet: string := Uppercase + Digits

  /** One draw of secrets.choice over the 36-character alphabet. */
  type Pick = n: nat | n < 36

  /** The draws behind one code, one per character. */
  type Draws = d: seq<Pick> | |d| == CodeLength witness [0, 0, 0, 0, 0, 0]

  predicate IsCodeChar(c: char) {
    'A' <= c <= 'Z' || '0' <= c <= '9'
  }

  /** The format every generated code has: [A-Z0-9]{6}. */
  predicate ValidCode(code: string) {
    |code| == CodeLength && forall i :: 0 <= i < |code| ==> IsCodeChar(code[i])
  }

  /** Characters of the alphabet are exactly the upper-case letters and digits. */
  lemma AlphabetChars(k: nat)
    requires k < 36
    ensures |Alphabet| == 36
    ensures IsCodeChar(Alphabet[k])
    ensures k < 26 ==> Alphabet[k] as int == 'A' as int + k
    ensures k >= 26 ==> Alphabet[k] as int == '0' as int + k - 26
  {
    assert |Uppercase| == 26 && |Digits| == 10;
    if k < 26 {
      assert Alphabet[k] == Uppercase[k];
    } else {
      assert Alphabet[k] == Digits[k - 26];
    }
  }

  lemma AlphabetAllCodeChars()
    ensures |Alphabet| == 36
    ensures forall k :: 0 <= k < 36 ==> IsCodeChar(Alphabet[k])
  {
    forall k | 0 <= k < 36
      ensures IsCodeChar(Alphabet[k])
    {
      AlphabetChars(k);
    }
  }

  /** The six-character code of a new session, each character chosen
      from the alphabet by one draw, the i-th draw choosing the i-th
      character. */
  function GenerateCode(draws: Draws): (code: string)
    ensures ValidCode(code)
    ensures forall i :: 0 <= i < CodeLength ==> code[i] == Alphabet[draws[i]]
  {
    AlphabetAllCodeChars();
    seq(CodeLength, i requires 0 <= i < CodeLength => Alphabet[draws[i]])
  }

  /** The draw that yields character c. */
  function PickOf(c: char): (k: Pick)
    requires IsCodeChar(c)
    ensures Alphabet[k] == c
  {
    if 'A' <= c <= 'Z' then
      var k := (c as int) - ('A' as int);
      AlphabetChars(k);
      assert Alphabet[k] as int == c as int;
      k
    else
      var k := (c as int) - ('0' as int) + 26;
      AlphabetChars(k);
      assert Alphabet[k] as int == c as int;
      k
  }

  /** Every code of the right format is produced by some draws, so the
      generator covers all of [A-Z0-9]{6}. */
  lemma GenerateCodeOnto(code: string)
    requires ValidCode(code)
    ensures exists draws: Draws :: GenerateCode(draws) == code
  {
    var draws: Draws := seq(CodeLength, i requires 0 <= i < CodeLength => PickOf(code[i]));
    assert GenerateCode(draws) == code;
  }

  /** Different draws give different codes, so the 36^6 draw sequences and
      the valid codes are in one-to-one correspondence. */
  lemma GenerateCodeInjective(d1: Draws, d2: Draws)
    requires GenerateCode(d1) == GenerateCode(d2)
    ensures d1 == d2
  {
    forall i | 0 <= i < CodeLength
      ensures d1[i] == d2[i]
    {
      AlphabetChars(d1[i]);
      AlphabetChars(d2[i]);
      assert GenerateCode(d1)[i] == GenerateCode(d2)[i];
    }
  }
}

=== FILE: ledger.dfy ===
/** The attendance table: one record per successful check-in. Its central
    guarantee is that no (student, session) pair appears twice. */
module AttendanceLedger {

  /** One row of attendance; the subject is copied from the session when the
      row is written, and markedAt is the check-in time. */
  datatype Record = Record(studentId: nat, subjectId: nat, sessionId: nat, markedAt: int)

  /** The table in insertion order. */
  type Ledger = seq<Record>

  predicate IsFor(r: Record, studentId: nat, sessionId: nat) {
    r.studentId == studentId && r.sessionId == sessionId
  }

  /** The duplicate test: some row is for this student and session. */
  predicate HasRecord(ledger: Ledger, studentId: nat, sessionId: nat) {
    exists i :: 0 <= i < |ledger| && IsFor(ledger[i], studentId, sessionId)
  }

  /** No two records for the same (student, session) pair. */
  predicate Unique(ledger: Ledger) {
    forall i, j :: 0 <= i < j < |ledger| ==> !IsFor(ledger[j], ledger[i].studentId, ledger[i].sessionId)
  }

  /** Number of records for one (student, session) pair. */
  function Count(ledger: Ledger, studentId: nat, sessionId: nat): nat
    decreases |ledger|
  {
    if |ledger| == 0 then 0
    else Count(ledger[..|ledger| - 1], studentId, sessionId)
         + (if IsFor(ledger[|ledger| - 1], studentId, sessionId) then 1 else 0)
  }

  /** A pair is counted exactly when a record for it exists. */
  lemma {:induction false} CountPositive(ledger: Ledger, studentId: nat, sessionId: nat)
    ensures Count(ledger, studentId, sessionId) > 0 <==> HasRecord(ledger, studentId, sessionId)
    decreases |ledger|
  {
    if |ledger| > 0 {
      var front := ledger[..|ledger| - 1];
      CountPositive(front, studentId, sessionId);
      assert forall i :: 0 <= i < |front| ==> front[i] == ledger[i];
      if HasRecord(ledger, studentId, sessionId) && !IsFor(ledger[|ledger| - 1], studentId, sessionId) {
        var i :| 0 <= i < |ledger| && IsFor(ledger[i], studentId, sessionId);
        assert IsFor(front[i], studentId, sessionId);
      }
    }
  }

  /** Counting a non-empty ledger: the earlier records, plus the last one
      when it is for the pair. */
  lemma CountLast(ledger: Ledger, studentId: nat, sessionId: nat)
    requires |ledger| > 0
    ensures Count(ledger, studentId, sessionId)
            == Count(ledger[..|ledger| - 1], studentId, sessionId)
               + (if IsFor(ledger[|ledger| - 1], studentId, sessionId) then 1 else 0)
  {
  }

  /** A unique ledger has at most one record per (student, session). */
  lemma {:induction false} UniqueAtMostOne(ledger: Ledger)
    requires Unique(ledger)
    ensures forall st: nat, se: nat :: Count(ledger, st, se) <= 1
    decreases |ledger|
  {
    if |ledger| > 0 {
      var front := ledger[..|ledger| - 1];
      var last := ledger[|ledger| - 1];
      assert Unique(front) by {
        forall i, j | 0 <= i < j < |front|
          ensures !IsFor(front[j], front[i].studentId, front[i].sessionId)
        {
          assert front[i] == ledger[i] && front[j] == ledger[j];
        }
      }
      UniqueAtMostOne(front);
      assert !HasRecord(front, last.studentId, last.sessionId) by {
        forall i | 0 <= i < |front|
          ensures !IsFor(front[i], last.studentId, last.sessionId)
        {
          assert front[i] == ledger[i];
        }
      }
      CountPositive(front, last.studentId, last.sessionId);
      forall st: nat, se: nat
        ensures Count(ledger, st, se) <= 1
      {
        CountLast(ledger, st, se);
      }
    }
  }

  /** A ledger that is not unique has a pair counted more than once. */
  lemma {:induction false} NotUniqueWitness(ledger: Ledger) returns (st: nat, se: nat)
    requires !Unique(ledger)
    ensures Count(ledger, st, se) > 1
    decreases |ledger|
  {
    var i, j :| 0 <= i < j < |ledger| && IsFor(ledger[j], ledger[i].studentId, ledger[i].sessionId);
    var front := ledger[..|ledger| - 1];
    if j < |ledger| - 1 {
      assert front[i] == ledger[i] && front[j] == ledger[j];
      assert !Unique(front);
      st, se := NotUniqueWitness(front);
      CountLast(ledger, st, se);
    } else {
      st, se := ledger[i].studentId, ledger[i].sessionId;
      assert front[i] == ledger[i];
      assert HasRecord(front, st, se);
      CountPositive(front, st, se);
      CountLast(ledger, st, se);
    }
  }

  /** Uniqueness is the same as "at most one record per (student, session)". */
  lemma UniqueIffAtMostOne(ledger: Ledger)
    ensures Unique(ledger) <==> forall st: nat, se: nat :: Count(ledger, st, se) <= 1
  {
    if Unique(ledger) {
      UniqueAtMostOne(ledger);
    } else {
      var st, se := NotUniqueWitness(ledger);
    }
  }

  /** Appending a record for a pair not yet present keeps the ledger unique. */
  lemma AppendPreservesUnique(ledger: Ledger, r: Record)
    requires Unique(ledger)
    requires !HasRecord(ledger, r.studentId, r.sessionId)
    ensures Unique(ledger + [r])
  {
    var extended := ledger + [r];
    forall i, j | 0 <= i < j < |extended|
      ensures !IsFor(extended[j], extended[i].studentId, extended[i].sessionId)
    {
      if j == |ledger| {
        assert extended[i] == ledger[i];
        assert !IsFor(ledger[i], r.studentId, r.sessionId);
      }
    }
  }
}

=== FILE: payload.dfy ===
/** The QR payload codec. The teacher's page renders a session as
    `session:<id>;subject:<subject id>;code:<code>`; the check-in handler
    splits the scanned text on ';', splits every part on its first ':',
    builds a dictionary from the pairs (a later duplicate key wins) and reads
    the session id as a decimal number from the "session" entry, "0" when
    that entry is absent. */
module Payload {
  import opened Wrappers
  import opened Text
  import opened Sessions

  /** Why a payload is rejected: dict() refused a part without ':', or int()
      refused the session value. */
  datatype DecodeError = MissingColon | BadSessionId

  /** A decoded payload: the whole dictionary, and the session id read from it. */
  datatype Decoded = Decoded(fields: map<string, string>, sessionId: nat)

  /** The text serve_qr puts in a session's QR code. It opens with the
      session key, the session id reads back from the digits after it, and
      the code is its tail. */
  function Encode(s: Session): (qr: string)
    ensures |qr| >= 8 && qr[..8] == "session:"
    ensures 8 + |ToDecimal(s.id)| <= |qr| && ParseNat(qr[8..8 + |ToDecimal(s.id)|]) == Some(s.id)
    ensures |s.code| <= |qr| && qr[|qr| - |s.code|..] == s.code
  {
    ParseToDecimal(s.id);
    var qr := "session:" + ToDecimal(s.id) + [';'] + "subject:" + ToDecimal(s.subjectId) + [';'] + "code:" + s.code;
    assert qr[8..8 + |ToDecimal(s.id)|] == ToDecimal(s.id);
    qr
  }

  /** Every part split on its first ':' into a key and a value, as dict()
      consumes them: None as soon as one part has no ':'. */
  function Pairs(parts: seq<string>): (r: Option<seq<(string, string)>>)
    ensures r.None? <==> exists i :: 0 <= i < |parts| && ':' !in parts[i]
    ensures r.Some? ==> |r.value| == |parts|
    ensures r.Some? ==> forall i :: 0 <= i < |parts| ==>
              parts[i] == r.value[i].0 + [':'] + r.value[i].1 && ':' !in r.value[i].0
    decreases |parts|
  {
    if |parts| == 0 then Some([])
    else
      var head := SplitFirst(parts[0], ':');
      var rest := Pairs(parts[1..]);
      if head.None? then None
      else if rest.None? then
        var i :| 0 <= i < |parts[1..]| && ':' !in parts[1..][i];
        assert ':' !in parts[i + 1];
        None
      else
        assert forall i :: 1 <= i < |parts| ==> parts[i] == parts[1..][i - 1];
        Some([head.value] + rest.value)
  }

  /** The pair at position i is the last one with its key. */
  predicate LastWithKey(pairs: seq<(string, string)>, i: nat)
    requires i < |pairs|
  {
    forall j :: i < j < |pairs| ==> pairs[j].0 != pairs[i].0
  }

  /** dict(pairs): pairs inserted left to right, a later key overwriting. */
  function ToDict(pairs: seq<(string, string)>): (d: map<string, string>)
    decreases |pairs|
  {
    if |pairs| == 0 then map[]
    else ToDict(pairs[..|pairs| - 1])[pairs[|pairs| - 1].0 := pairs[|pairs| - 1].1]
  }

  /** The dictionary's keys are exactly the pairs' keys. */
  lemma {:induction false} ToDictKeys(pairs: seq<(string, string)>, k: string)
    ensures k in ToDict(pairs) <==> exists i :: 0 <= i < |pairs| && pairs[i].0 == k
    decreases |pairs|
  {
    if |pairs| > 0 {
      var front := pairs[..|pairs| - 1];
      ToDictKeys(front, k);
      if exists i :: 0 <= i < |front| && front[i].0 == k {
        var i :| 0 <= i < |front| && front[i].0 == k;
        assert pairs[i].0 == k;
      }
      if exists i :: 0 <= i < |pairs| && pairs[i].0 == k {
        var i :| 0 <= i < |pairs| && pairs[i].0 == k;
        if i < |front| {
          assert front[i].0 == k;
        }
      }
    }
  }

  /** A later duplicate key wins: a key maps to the value of its last pair. */
  lemma {:induction false} ToDictLastWins(pairs: seq<(string, string)>, i: nat)
    requires i < |pairs| && LastWithKey(pairs, i)
    ensures pairs[i].0 in ToDict(pairs) && ToDict(pairs)[pairs[i].0] == pairs[i].1
    decreases |pairs|
  {
    var front := pairs[..|pairs| - 1];
    if i < |front| {
      assert front[i] == pairs[i];
      assert LastWithKey(front, i) by {
        forall j | i < j < |front|
          ensures front[j].0 != front[i].0
        {
          assert front[j] == pairs[j];
        }
      }
      ToDictLastWins(front, i);
    }
  }

  /** dict.get(key, default). */
  function Get(d: map<string, string>, key: string, default: string): string {
    if key in d then d[key] else default
  }

  /** Some ';'-separated part of the payload has no ':'. */
  predicate HasPartWithoutColon(qr: string) {
    exists i :: 0 <= i < |Split(qr, ';')| && ':' !in Split(qr, ';')[i]
  }

  /** The text int() reads as the session id, defined on the parts alone:
      the value after "session:" in the last part that starts with it, or
      "0" when no part does. */
  function SessionValue(parts: seq<string>): string
    decreases |parts|
  {
    if |parts| == 0 then "0"
    else if IsSessionPart(parts[|parts| - 1]) then parts[|parts| - 1][8..]
    else SessionValue(parts[..|parts| - 1])
  }

  /** The dictionary built from the parts answers get('session', '0') with
      the session value of the parts. */
  lemma {:induction false} SessionLookup(parts: seq<string>, pairs: seq<(string, string)>)
    requires |pairs| == |parts|
    requires forall i :: 0 <= i < |parts| ==> parts[i] == pairs[i].0 + [':'] + pairs[i].1 && ':' !in pairs[i].0
    ensures Get(ToDict(pairs), "session", "0") == SessionValue(parts)
    decreases |parts|
  {
    if |parts| > 0 {
      var n := |parts| - 1;
      assert forall i :: 0 <= i < n ==> parts[..n][i] == parts[i] && pairs[..n][i] == pairs[i];
      SessionLookup(parts[..n], pairs[..n]);
      SessionKey(parts[n], pairs[n].0, pairs[n].1);
    }
  }

  /** The parsing block of mark_attendance, up to the session lookup. A
      payload is accepted exactly when every part has a ':' and the session
      value of the parts is a decimal number, which is then the id. */
  function Decode(qr: string): (r: Result<Decoded, DecodeError>)
    ensures r == Err(MissingColon) <==> HasPartWithoutColon(qr)
    ensures r.Ok? <==> !HasPartWithoutColon(qr) && ParseNat(SessionValue(Split(qr, ';'))).Some?
    ensures r.Ok? ==> ParseNat(SessionValue(Split(qr, ';'))) == Some(r.value.sessionId)
    ensures r.Ok? ==> Pairs(Split(qr, ';')).Some? && r.value.fields == ToDict(Pairs(Split(qr, ';')).value)
    ensures r.Ok? ==> Get(r.value.fields, "session", "0") == SessionValue(Split(qr, ';'))
    ensures r.Ok? ==> ("session" in r.value.fields ==> ParseNat(r.value.fields["session"]) == Some(r.value.sessionId))
    ensures r.Ok? ==> ("session" !in r.value.fields ==> r.value.sessionId == 0)
  {
    var parts := Split(qr, ';');
    match Pairs(parts)
    case None =>
      Err(MissingColon)
    case Some(pairs) =>
      var fields := ToDict(pairs);
      SessionLookup(parts, pairs);
      match ParseNat(Get(fields, "session", "0"))
      case None => Err(BadSessionId)
      case Some(id) => Ok(Decoded(fields, id))
  }

  /** The encoded payload is the three fields joined by ';'. */
  lemma EncodeAsJoin(s: Session)
    ensures Encode(s) == Join(["session:" + ToDecimal(s.id), "subject:" + ToDecimal(s.subjectId), "code:" + s.code], ';')
  {
    var a, b, c := "session:" + ToDecimal(s.id), "subject:" + ToDecimal(s.subjectId), "code:" + s.code;
    assert Join([a, b, c], ';') == a + [';'] + Join([b, c], ';');
    assert Join([b, c], ';') == b + [';'] + c;
  }

  /** The rendered payload splits back into its three fields. */
  lemma EncodeParts(s: Session)
    requires ';' !in s.code
    ensures Split(Encode(s), ';') == ["session:" + ToDecimal(s.id), "subject:" + ToDecimal(s.subjectId), "code:" + s.code]
  {
    var sid, sub := ToDecimal(s.id), ToDecimal(s.subjectId);
    EncodeAsJoin(s);
    assert ';' !in sid && ';' !in sub by {
      assert forall k :: 0 <= k < |sid| ==> IsDigit(sid[k]);
      assert forall k :: 0 <= k < |sub| ==> IsDigit(sub[k]);
    }
    SplitJoin(["session:" + sid, "subject:" + sub, "code:" + s.code], ';');
  }

  /** Pairs read one part at a time, front to back. */
  lemma PairsCons(p: string, rest: seq<string>, kv: (string, string), pairs: seq<(string, string)>)
    requires SplitFirst(p, ':') == Some(kv) && Pairs(rest) == Some(pairs)
    ensures Pairs([p] + rest) == Some([kv] + pairs)
  {
    assert ([p] + rest)[1..] == rest;
  }

  /** Each of the three fields splits on its first ':' into key and value. */
  lemma EncodePairs(sid: string, sub: string, code: string)
    ensures Pairs(["session:" + sid, "subject:" + sub, "code:" + code])
            == Some([("session", sid), ("subject", sub), ("code", code)])
  {
    var parts := ["session:" + sid, "subject:" + sub, "code:" + code];
    assert parts[0] == "session" + [':'] + sid;
    assert parts[1] == "subject" + [':'] + sub;
    assert parts[2] == "code" + [':'] + code;
    SplitFirstJoin("session", sid, ':');
    SplitFirstJoin("subject", sub, ':');
    SplitFirstJoin("code", code, ':');
    PairsCons(parts[2], [], ("code", code), []);
    assert [parts[2]] == [parts[2]] + [];
    assert [("code", code)] == [("code", code)] + [];
    PairsCons(parts[1], [parts[2]], ("subject", sub), [("code", code)]);
    assert [parts[1], parts[2]] == [parts[1]] + [parts[2]];
    assert [("subject", sub), ("code", code)] == [("subject", sub)] + [("code", code)];
    PairsCons(parts[0], [parts[1], parts[2]], ("session", sid), [("subject", sub), ("code", code)]);
    assert parts == [parts[0]] + [parts[1], parts[2]];
    assert [("session", sid), ("subject", sub), ("code", code)]
        == [("session", sid)] + [("subject", sub), ("code", code)];
  }

  /** The three distinct keys land in the dictionary unchanged. */
  lemma EncodeDict(sid: string, sub: string, code: string)
    ensures ToDict([("session", sid), ("subject", sub), ("code", code)])
            == map["session" := sid, "subject" := sub, "code" := code]
  {
    var pairs := [("session", sid), ("subject", sub), ("code", code)];
    assert pairs[..2][..1][..0] == [];
    assert ToDict(pairs[..2][..1]) == map["session" := sid];
    assert ToDict(pairs[..2]) == map["session" := sid, "subject" := sub];
  }

  /** Codec round trip: for any session whose code contains no ';', decoding
      the rendered payload recovers the session id, and the dictionary holds
      exactly the three fields with the subject id and the code unchanged. */
  lemma DecodeEncode(s: Session)
    requires ';' !in s.code
    ensures Decode(Encode(s)) == Ok(Decoded(
              map["session" := ToDecimal(s.id), "subject" := ToDecimal(s.subjectId), "code" := s.code],
              s.id))
    ensures ParseNat(Decode(Encode(s)).value.fields["subject"]) == Some(s.subjectId)
    ensures Decode(Encode(s)).value.fields["code"] == s.code
  {
    var sid, sub := ToDecimal(s.id), ToDecimal(s.subjectId);
    EncodeParts(s);
    EncodePairs(sid, sub, s.code);
    EncodeDict(sid, sub, s.code);
    ParseToDecimal(s.id);
    ParseToDecimal(s.subjectId);
  }

  /** A part carries the session key when it starts with "session:". */
  predicate IsSessionPart(p: string) {
    |p| >= 8 && p[..8] == "session:"
  }

  /** Splitting a part on its first ':' gives the key "session" exactly when the
      part starts with "session:", and the value is then the rest of the part. */
  lemma SessionKey(p: string, k: string, v: string)
    requires p == k + [':'] + v && ':' !in k
    ensures k == "session" <==> IsSessionPart(p)
    ensures k == "session" ==> v == p[8..]
  {
    SplitFirstJoin(k, v, ':');
    if IsSessionPart(p) {
      assert p == "session" + [':'] + p[8..];
      SplitFirstJoin("session", p[8..], ':');
    }
  }

  /** Every ';'-separated part of the payload has a ':'. */
  predicate AllPartsHaveColon(qr: string) {
    forall i :: 0 <= i < |Split(qr, ';')| ==> ':' in Split(qr, ';')[i]
  }

  /** A well-formed payload in which no part starts with "session:" decodes
      to session id 0, the default of fields.get('session', '0'). */
  lemma DecodeWithoutSessionKey(qr: string)
    requires AllPartsHaveColon(qr)
    requires forall i :: 0 <= i < |Split(qr, ';')| ==> !IsSessionPart(Split(qr, ';')[i])
    ensures Decode(qr).Ok? && Decode(qr).value.sessionId == 0
  {
    var parts := Split(qr, ';');
    var pairs := Pairs(parts).value;
    ToDictKeys(pairs, "session");
    if "session" in ToDict(pairs) {
      var i :| 0 <= i < |pairs| && pairs[i].0 == "session";
      SessionKey(parts[i], pairs[i].0, pairs[i].1);
      assert false;
    }
  }

  /** In a well-formed payload the session id comes from the last part that
      starts with "session:"; the payload is rejected when that value is not a
      decimal number. */
  lemma DecodeLastSessionPart(qr: string, i: nat)
    requires AllPartsHaveColon(qr)
    requires i < |Split(qr, ';')| && IsSessionPart(Split(qr, ';')[i])
    requires forall j :: i < j < |Split(qr, ';')| ==> !IsSessionPart(Split(qr, ';')[j])
    ensures ParseNat(Split(qr, ';')[i][8..]).None? ==> Decode(qr) == Err(BadSessionId)
    ensures ParseNat(Split(qr, ';')[i][8..]).Some? ==>
              Decode(qr).Ok? && Decode(qr).value.sessionId == ParseNat(Split(qr, ';')[i][8..]).value
  {
    var parts := Split(qr, ';');
    var pairs := Pairs(parts).value;
    SessionKey(parts[i], pairs[i].0, pairs[i].1);
    assert LastWithKey(pairs, i) by {
      forall j | i < j < |pairs|
        ensures pairs[j].0 != pairs[i].0
      {
        SessionKey(parts[j], pairs[j].0, pairs[j].1);
      }
    }
    ToDictLastWins(pairs, i);
  }

  /** Text without any ':' is rejected as malformed: dict() refuses the
      single part. */
  lemma DecodeRejectsNoColon(qr: string)
    requires ':' !in qr
    ensures Decode(qr) == Err(MissingColon)
  {
    var parts := Split(qr, ';');
    if ':' in parts[0] {
      JoinContains(parts, ';', 0, ':');
    }
    assert ':' !in parts[0];
  }
}

=== FILE: sessions.dfy ===
/** The attendance_sessions table: sessions created by teachers, looked up by
    id (QR path) or by code (typed path), and the expiry test both paths use.
    Timestamps are integer microseconds on the single UTC clock the handlers
    read, the resolution of the ISO-8601 strings the table stores. */
module Sessions {
  import opened Wrappers
  import opened CodeGen

  /** Validity window of a new session: 30 minutes, in microseconds. */
  const ExpiryWindow: int := 30 * 60 * 1_000_000

  /** Largest value SQLite's INTEGER type holds; binding a larger Python int
      as a query parameter raises OverflowError. */
  const SqliteIntMax: nat := 0x7FFF_FFFF_FFFF_FFFF

  /** One row of attendance_sessions. A NULL expires_at is None. */
  datatype Session = Session(
    id: nat,
    teacherId: nat,
    subjectId: nat,
    code: string,
    createdAt: int,
    expiresAt: Option<int>)

  /** The table in row order; a query's fetchone() sees the first match. */
  type Store = seq<Session>

  /** The expiry test of both check-in paths: a session without an expiry
      never expires, and one with an expiry is still valid at that very
      instant, expiring only once now has passed it. */
  predicate IsExpired(s: Session, now: int): (b: bool)
    ensures b ==> s.expiresAt.Some?
    ensures s.expiresAt.Some? && now <= s.expiresAt.value ==> !b
  {
    s.expiresAt.Some? && s.expiresAt.value < now
  }

  /** Expiry is final: a session expired at one time is expired at every
      later time. */
  lemma ExpiredStaysExpired(s: Session, t1: int, t2: int)
    requires t1 <= t2 && IsExpired(s, t1)
    ensures IsExpired(s, t2)
  {
  }

  /** Position of the first session satisfying m, in store order. */
  function FirstWhere(store: Store, m: Session -> bool): (r: Option<nat>)
    ensures r.None? ==> forall j :: 0 <= j < |store| ==> !m(store[j])
    ensures r.Some? ==> r.value < |store| && m(store[r.value])
    ensures r.Some? ==> forall j :: 0 <= j < r.value ==> !m(store[j])
    decreases |store|
  {
    if |store| == 0 then None
    else if m(store[0]) then Some(0)
    else match FirstWhere(store[1..], m)
      case None => None
      case Some(i) => Some(i + 1)
  }

  /** s is the first session in store order whose id is id. */
  predicate FirstWithId(store: Store, s: Session, id: nat) {
    exists i :: 0 <= i < |store| && store[i] == s && s.id == id
                && forall j :: 0 <= j < i ==> store[j].id != id
  }

  /** s is the first session in store order whose code is code. */
  predicate FirstWithCode(store: Store, s: Session, code: string) {
    exists i :: 0 <= i < |store| && store[i] == s && s.code == code
                && forall j :: 0 <= j < i ==> store[j].code != code
  }

  predicate NoSessionWithId(store: Store, id: nat) {
    forall j :: 0 <= j < |store| ==> store[j].id != id
  }

  predicate NoSessionWithCode(store: Store, code: string) {
    forall j :: 0 <= j < |store| ==> store[j].code != code
  }

  /** Lookup by id as the QR path does it: the first row with that id. */
  function FindById(store: Store, id: nat): (r: Option<Session>)
    ensures r.None? <==> NoSessionWithId(store, id)
    ensures r.Some? ==> FirstWithId(store, r.value, id)
  {
    match FirstWhere(store, (s: Session) => s.id == id)
    case None => None
    case Some(i) => Some(store[i])
  }

  /** Lookup by code as the typed path does it: the first row whose code
      matches exactly, case included. */
  function FindByCode(store: Store, code: string): (r: Option<Session>)
    ensures r.None? <==> NoSessionWithCode(store, code)
    ensures r.Some? ==> FirstWithCode(store, r.value, code)
  {
    match FirstWhere(store, (s: Session) => s.code == code)
    case None => None
    case Some(i) => Some(store[i])
  }

  /** The largest id in the store, 0 for an empty store. */
  function MaxId(store: Store): (m: nat)
    ensures forall j :: 0 <= j < |store| ==> store[j].id <= m
    ensures |store| == 0 ==> m == 0
    ensures |store| > 0 ==> exists j :: 0 <= j < |store| && store[j].id == m
    decreases |store|
  {
    if |store| == 0 then 0
    else
      var rest := MaxId(store[1..]);
      if store[0].id >= rest then store[0].id else rest
  }

  /** generate_session: append a row whose id is one past every id in use
      (SQLite AUTOINCREMENT on a table whose rows are never deleted), whose
      code comes from the six draws, created now and expiring 30 minutes later.
      The store grows by exactly that row. */
  function CreateSession(store: Store, teacherId: nat, subjectId: nat, draws: Draws, now: int): (r: Store)
    ensures |r| == |store| + 1 && r[..|store|] == store
    ensures r[|store|].id > 0
    ensures forall j :: 0 <= j < |store| ==> store[j].id < r[|store|].id
    ensures r[|store|].teacherId == teacherId && r[|store|].subjectId == subjectId
    ensures ValidCode(r[|store|].code)
    ensures r[|store|].createdAt == now
    ensures r[|store|].expiresAt == Some(now + ExpiryWindow)
    ensures r[|store|].createdAt < r[|store|].expiresAt.value
  {
    var s := Session(MaxId(store) + 1, teacherId, subjectId, GenerateCode(draws), now, Some(now + ExpiryWindow));
    store + [s]
  }

  /** No two sessions share an id (the column is the table's primary key). */
  predicate UniqueIds(store: Store) {
    forall i, j :: 0 <= i < j < |store| ==> store[i].id != store[j].id
  }

  /** Session ids stay distinct as sessions are created. */
  lemma CreatePreservesUniqueIds(store: Store, teacherId: nat, subjectId: nat, draws: Draws, now: int)
    requires UniqueIds(store)
    ensures UniqueIds(CreateSession(store, teacherId, subjectId, draws, now))
  {
  }

  /** With distinct ids, looking a stored session up by its id finds it. */
  lemma FindByIdStored(store: Store, i: nat)
    requires UniqueIds(store) && i < |store|
    ensures FindById(store, store[i].id) == Some(store[i])
  {
  }

  /** Appending a row does not change the answer for an id already present. */
  lemma FindByIdAppend(store: Store, s: Session, id: nat)
    requires FindById(store, id).Some?
    ensures FindById(store + [s], id) == FindById(store, id)
  {
    var extended := store + [s];
    assert forall j :: 0 <= j < |store| ==> extended[j] == store[j];
  }

  /** Read-after-write: a new session is found by its id at once, and by its
      code exactly when no older session already holds that code (codes are
      not checked for uniqueness, so a colliding older session shadows it). */
  lemma CreatedSessionVisible(store: Store, teacherId: nat, subjectId: nat, draws: Draws, now: int)
    ensures var r := CreateSession(store, teacherId, subjectId, draws, now);
            FindById(r, r[|store|].id) == Some(r[|store|])
    ensures var r := CreateSession(store, teacherId, subjectId, draws, now);
            FindByCode(r, r[|store|].code) == Some(r[|store|])
            <==> forall j :: 0 <= j < |store| ==> store[j].code != r[|store|].code
  {
    var r := CreateSession(store, teacherId, subjectId, draws, now);
    var s := r[|store|];
    assert forall j :: 0 <= j < |store| ==> r[j] == store[j];
    if exists j :: 0 <= j < |store| && store[j].code == s.code {
      var j :| 0 <= j < |store| && store[j].code == s.code;
      assert store[j].id != s.id;
    }
  }
}

=== FILE: text.dfy ===
/** Text primitives with the behaviour of the Python built-ins the check-in
    handler relies on: str.strip(), str.split(sep), str.split(sep, 1),
    str() of a non-negative int and int() of a decimal-digit string. */
module Text {
  import opened Wrappers

  /** Whitespace as Python's str.isspace() classifies it; str.strip() with no
      argument removes exactly these characters from both ends. */
  predicate IsSpace(c: char) {
    || c == ' '
    || '\t' <= c <= '\r'
    || '\U{1C}' <= c <= '\U{1F}'
    || c == '\U{85}' || c == '\U{A0}' || c == '\U{1680}'
    || '\U{2000}' <= c <= '\U{200A}'
    || c == '\U{2028}' || c == '\U{2029}' || c == '\U{202F}'
    || c == '\U{205F}' || c == '\U{3000}'
  }

  /** s with its leading whitespace removed. */
  function TrimStart(s: string): (r: string)
    ensures |r| <= |s| && r == s[|s| - |r|..]
    ensures forall k :: 0 <= k < |s| - |r| ==> IsSpace(s[k])
    ensures |r| > 0 ==> !IsSpace(r[0])
    decreases |s|
  {
    if |s| > 0 && IsSpace(s[0]) then TrimStart(s[1..]) else s
  }

  /** s with its trailing whitespace removed. */
  function TrimEnd(s: string): (r: string)
    ensures |r| <= |s| && r == s[..|r|]
    ensures forall k :: |r| <= k < |s| ==> IsSpace(s[k])
    ensures |r| > 0 ==> !IsSpace(r[|r| - 1])
    decreases |s|
  {
    if |s| > 0 && IsSpace(s[|s| - 1]) then TrimEnd(s[..|s| - 1]) else s
  }

  /** r is what is left of s after removing the first i characters and
      everything after r, and all that was removed is whitespace. */
  ghost predicate StrippedAt(s: string, i: int, r: string) {
    && 0 <= i <= |s| - |r|
    && r == s[i..i + |r|]
    && (forall k :: 0 <= k < i ==> IsSpace(s[k]))
    && (forall k :: i + |r| <= k < |s| ==> IsSpace(s[k]))
  }

  /** Python's s.strip(): the slice of s left once every whitespace character
      is removed from both ends. The two ensures determine the result. */
  function Trim(s: string): (r: string)
    ensures |r| > 0 ==> !IsSpace(r[0]) && !IsSpace(r[|r| - 1])
    ensures exists i :: StrippedAt(s, i, r)
  {
    var t := TrimStart(s);
    var r := TrimEnd(t);
    assert StrippedAt(s, |s| - |t|, r);
    r
  }

  /** A stripped field is empty exactly when it held nothing but whitespace. */
  lemma TrimBlank(s: string)
    ensures Trim(s) == [] <==> forall k :: 0 <= k < |s| ==> IsSpace(s[k])
  {
  }

  /** A string without whitespace at its ends is left alone by strip(). */
  lemma TrimUnchanged(s: string)
    requires |s| > 0 ==> !IsSpace(s[0]) && !IsSpace(s[|s| - 1])
    ensures Trim(s) == s
  {
  }

  /** Python's sep.join(parts) for a one-character separator. */
  function Join(parts: seq<string>, sep: char): string
    decreases |parts|
  {
    if |parts| == 0 then []
    else if |parts| == 1 then parts[0]
    else parts[0] + [sep] + Join(parts[1..], sep)
  }

  /** Every character of every part occurs in the joined string. */
  lemma {:induction false} JoinContains(parts: seq<string>, sep: char, i: nat, c: char)
    requires i < |parts| && c in parts[i]
    ensures c in Join(parts, sep)
    decreases |parts|
  {
    var joined := Join(parts, sep);
    if i == 0 {
      var k :| 0 <= k < |parts[0]| && parts[0][k] == c;
      assert joined[k] == c;
    } else {
      var rest := Join(parts[1..], sep);
      JoinContains(parts[1..], sep, i - 1, c);
      var k :| 0 <= k < |rest| && rest[k] == c;
      assert joined == parts[0] + [sep] + rest;
      assert joined[|parts[0]| + 1 + k] == c;
    }
  }

  /** Python's s.split(sep): at least one part, no part contains sep, and
      joining the parts with sep gives s back. */
  function Split(s: string, sep: char): (parts: seq<string>)
    ensures |parts| >= 1
    ensures forall i :: 0 <= i < |parts| ==> sep !in parts[i]
    ensures Join(parts, sep) == s
    decreases |s|
  {
    if |s| == 0 then [[]]
    else
      var rest := Split(s[1..], sep);
      if s[0] == sep then [[]] + rest
      else [[s[0]] + rest[0]] + rest[1..]
  }

  /** Split is the inverse of Join on parts free of the separator. */
  lemma {:induction false} SplitJoin(parts: seq<string>, sep: char)
    requires |parts| >= 1
    requires forall i :: 0 <= i < |parts| ==> sep !in parts[i]
    ensures Split(Join(parts, sep), sep) == parts
    decreases |parts|
  {
    if |parts| == 1 {
      SplitNoSeparator(parts[0], sep);
    } else {
      SplitJoin(parts[1..], sep);
      SplitAfterPart(parts[0], Join(parts[1..], sep), sep);
      assert parts == [parts[0]] + parts[1..];
    }
  }

  /** A string without the separator splits into itself alone. */
  lemma {:induction false} SplitNoSeparator(s: string, sep: char)
    requires sep !in s
    ensures Split(s, sep) == [s]
    decreases |s|
  {
    if |s| > 0 {
      SplitNoSeparator(s[1..], sep);
      assert [s[0]] + s[1..] == s;
    }
  }

  /** A leading separator-free part followed by the separator splits off first. */
  lemma {:induction false} SplitAfterPart(p: string, t: string, sep: char)
    requires sep !in p
    ensures Split(p + [sep] + t, sep) == [p] + Split(t, sep)
    decreases |p|
  {
    var s := p + [sep] + t;
    if |p| == 0 {
      assert s[0] == sep && s[1..] == t;
    } else {
      assert s[0] == p[0];
      assert s[1..] == p[1..] + [sep] + t;
      SplitAfterPart(p[1..], t, sep);
      assert [p[0]] + p[1..] == p;
    }
  }

  /** Python's p.split(sep, 1) read as a pair: None when sep does not occur
      (the one-element list that dict() rejects), otherwise the text before
      the first sep and everything after it. */
  function SplitFirst(p: string, sep: char): (r: Option<(string, string)>)
    ensures r.None? <==> sep !in p
    ensures r.Some? ==> p == r.value.0 + [sep] + r.value.1 && sep !in r.value.0
    decreases |p|
  {
    if |p| == 0 then None
    else if p[0] == sep then Some(([], p[1..]))
    else match SplitFirst(p[1..], sep)
      case None => None
      case Some(kv) => Some(([p[0]] + kv.0, kv.1))
  }

  /** SplitFirst is the inverse of joining a separator-free key to any value. */
  lemma {:induction false} SplitFirstJoin(k: string, v: string, sep: char)
    requires sep !in k
    ensures SplitFirst(k + [sep] + v, sep) == Some((k, v))
    decreases |k|
  {
    var p := k + [sep] + v;
    if |k| > 0 {
      assert p[0] == k[0] && p[1..] == k[1..] + [sep] + v;
      SplitFirstJoin(k[1..], v, sep);
      assert [k[0]] + k[1..] == k;
    } else {
      assert p[1..] == v;
    }
  }

  predicate IsDigit(c: char) {
    '0' <= c <= '9'
  }

  predicate AllDigits(s: string) {
    forall i :: 0 <= i < |s| ==> IsDigit(s[i])
  }

  function DigitChar(d: nat): (c: char)
    requires d < 10
    ensures IsDigit(c) && c as int == '0' as int + d
  {
    (('0' as int) + d) as char
  }

  function DigitValue(c: char): (d: nat)
    requires IsDigit(c)
    ensures d < 10 && DigitChar(d) == c
  {
    (c as int) - ('0' as int)
  }

  /** str(n) for a non-negative int: decimal digits without leading zeros. */
  function ToDecimal(n: nat): (r: string)
    ensures |r| > 0 && AllDigits(r)
    ensures r[0] == '0' ==> n == 0
    decreases n
  {
    if n < 10 then [DigitChar(n)] else ToDecimal(n / 10) + [DigitChar(n % 10)]
  }

  /** The number a string of decimal digits denotes, leading zeros allowed. */
  function DecimalValue(s: string): nat
    requires AllDigits(s)
    decreases |s|
  {
    if |s| == 0 then 0 else DecimalValue(s[..|s| - 1]) * 10 + DigitValue(s[|s| - 1])
  }

  /** int(s) on plain decimal text: a value exactly when s is a non-empty run
      of ASCII digits, and None where int() would raise ValueError. */
  function ParseNat(s: string): (r: Option<nat>)
    ensures r.Some? <==> |s| > 0 && AllDigits(s)
  {
    if |s| > 0 && AllDigits(s) then Some(DecimalValue(s)) else None
  }

  /** int(str(n)) == n. */
  lemma {:induction false} ParseToDecimal(n: nat)
    ensures ParseNat(ToDecimal(n)) == Some(n)
    decreases n
  {
    var s := ToDecimal(n);
    if n < 10 {
      assert s[..|s| - 1] == [];
      assert DigitValue(s[0]) == n;
      assert DecimalValue(s) == n;
    } else {
      ParseToDecimal(n / 10);
      assert s[..|s| - 1] == ToDecimal(n / 10);
    }
  }

  /** A leading zero does not change the number a digit string denotes. */
  lemma {:induction false} DecimalValueLeadingZero(s: string)
    requires AllDigits(s)
    ensures AllDigits(['0'] + s) && DecimalValue(['0'] + s) == DecimalValue(s)
    decreases |s|
  {
    var z := ['0'] + s;
    if |s| == 0 {
      assert z[..0] == [];
    } else {
      var front := s[..|s| - 1];
      DecimalValueLeadingZero(front);
      assert z[..|z| - 1] == ['0'] + front;
      assert z[|z| - 1] == s[|s| - 1];
    }
  }

  /** int() ignores leading zeros: int('0' + s) == int(s) for digit text s. */
  lemma ParseNatLeadingZero(s: string)
    requires |s| > 0 && AllDigits(s)
    ensures ParseNat(['0'] + s) == ParseNat(s)
  {
    DecimalValueLeadingZero(s);
  }

  /** Digit text that does not open with '0' denotes a positive number. */
  lemma {:induction false} DecimalValuePositive(s: string)
    requires |s| > 0 && AllDigits(s) && s[0] != '0'
    ensures DecimalValue(s) > 0
    decreases |s|
  {
    if |s| > 1 {
      DecimalValuePositive(s[..|s| - 1]);
    } else {
      assert s[..0] == [];
    }
  }

  /** str(int(s)) == s for canonical digit text (no leading zero unless it
      is "0" itself), so ParseNat and ToDecimal are mutually inverse there. */
  lemma {:induction false} ToDecimalParse(s: string)
    requires |s| > 0 && AllDigits(s) && (s[0] != '0' || |s| == 1)
    ensures ParseNat(s).Some? && ToDecimal(ParseNat(s).value) == s
    decreases |s|
  {
    var n := DecimalValue(s);
    if |s| == 1 {
      assert s[..|s| - 1] == [];
      assert n == DecimalValue(s[..|s| - 1]) * 10 + DigitValue(s[0]);
      assert ToDecimal(n) == [s[0]];
    } else {
      var front := s[..|s| - 1];
      var d := DigitValue(s[|s| - 1]);
      DecimalValuePositive(front);
      ToDecimalParse(front);
      assert n == DecimalValue(front) * 10 + d;
      assert n / 10 == DecimalValue(front) && n % 10 == d;
      assert ToDecimal(n) == ToDecimal(n / 10) + [DigitChar(n % 10)];
      assert s == front + [s[|s| - 1]];
    }
  }
}

=== FILE: verifier.dfy ===
/** The check-in decision procedure of mark_attendance, lifted out of the
    request handler: the two stripped form fields select a session (the QR
    field taking precedence), an expired session is refused, a repeated
    check-in is a no-op, and otherwise exactly one record is appended. */
module Verifier {
  import opened Wrappers
  import opened Text
  import opened CodeGen
  import opened Sessions
  import opened AttendanceLedger
  import opened Payload

  /** The message each branch of the handler ends with. */
  datatype Outcome =
    | QrMarked        // attendance marked via QR
    | CodeMarked      // attendance marked via code
    | AlreadyMarked   // a record for this student and session exists
    | Expired         // the session's expiry lies before now
    | InvalidQr       // the payload could not be decoded
    | InvalidCode     // no session has the typed code
    | NoData          // nothing usable was submitted
  {
    predicate IsMarked() {
      QrMarked? || CodeMarked?
    }
  }

  /** Which field designated the session. */
  datatype Channel = ByQr | ByCode

  /** What the two form fields designate before expiry and duplicates are
      looked at. */
  datatype Resolution =
    | Blank                                  // both fields empty after strip()
    | BadPayload                             // the QR text did not decode, or its id cannot be bound
    | UnknownSession                         // decoded id matches no session
    | UnknownCode                            // typed code matches no session
    | Resolved(session: Session, channel: Channel)

  /** rec belongs to a stored session, carries that session's subject, and
      was written while the session was unexpired. */
  predicate Backed(store: Store, rec: Record) {
    exists i :: 0 <= i < |store| && store[i].id == rec.sessionId
                && store[i].subjectId == rec.subjectId && !IsExpired(store[i], rec.markedAt)
  }

  /** The outcome of one check-in and the ledger after it. */
  datatype Response = Response(outcome: Outcome, ledger: Ledger)

  /** The session id a non-blank QR field designates: None when the text
      does not decode, or when the decoded id is too large for SQLite, whose
      OverflowError the same handler turns into "invalid QR content". */
  function ScannedId(qrField: string): (r: Option<nat>)
    requires Trim(qrField) != []
    ensures r.Some? ==> r.value <= SqliteIntMax
    ensures r.Some? <==> Decode(Trim(qrField)).Ok? && Decode(Trim(qrField)).value.sessionId <= SqliteIntMax
    ensures r.Some? ==> r.value == Decode(Trim(qrField)).value.sessionId
  {
    match Decode(Trim(qrField))
    case Err(_) => None
    case Ok(p) => if p.sessionId <= SqliteIntMax then Some(p.sessionId) else None
  }

  /** The session a check-in refers to: a non-blank QR field is decoded and
      looked up by id, and only a blank QR field lets the typed code be looked
      up; each lookup takes the first match in store order. */
  function Resolve(store: Store, codeField: string, qrField: string): (r: Resolution)
    ensures r.Blank? <==> Trim(qrField) == [] && Trim(codeField) == []
    ensures r.BadPayload? <==> Trim(qrField) != [] && ScannedId(qrField).None?
    ensures r.UnknownSession? <==> (Trim(qrField) != [] && ScannedId(qrField).Some?
              && NoSessionWithId(store, ScannedId(qrField).value))
    ensures r.UnknownCode? <==> (Trim(qrField) == [] && Trim(codeField) != []
              && NoSessionWithCode(store, Trim(codeField)))
    ensures r.Resolved? && r.channel == ByQr ==>
              Trim(qrField) != [] && ScannedId(qrField).Some?
              && FirstWithId(store, r.session, ScannedId(qrField).value)
    ensures r.Resolved? && r.channel == ByCode ==>
              Trim(qrField) == [] && Trim(codeField) != []
              && FirstWithCode(store, r.session, Trim(codeField))
  {
    var code := Trim(codeField);
    var qr := Trim(qrField);
    if qr != [] then
      match ScannedId(qrField)
      case None => BadPayload
      case Some(id) =>
        match FindById(store, id)
        case None => UnknownSession
        case Some(s) => Resolved(s, ByQr)
    else if code != [] then
      match FindByCode(store, code)
      case None => UnknownCode
      case Some(s) => Resolved(s, ByCode)
    else Blank
  }

  /** The tail both paths share once a session is found: an expired session
      is refused, a student with a record for it is told so, and otherwise
      one record with the session's subject is appended under the path's
      success message. The ledger changes only in that last case. */
  function Admit(ledger: Ledger, s: Session, studentId: nat, now: int, marked: Outcome): (r: Response)
    requires marked.IsMarked()
    ensures r.outcome == Expired <==> IsExpired(s, now)
    ensures r.outcome == AlreadyMarked <==> !IsExpired(s, now) && HasRecord(ledger, studentId, s.id)
    ensures r.outcome == marked <==> !IsExpired(s, now) && !HasRecord(ledger, studentId, s.id)
    ensures r.outcome == marked ==> r.ledger == ledger + [Record(studentId, s.subjectId, s.id, now)]
    ensures r.outcome != marked ==> r.ledger == ledger
  {
    if IsExpired(s, now) then Response(Expired, ledger)
    else if HasRecord(ledger, studentId, s.id) then Response(AlreadyMarked, ledger)
    else Response(marked, ledger + [Record(studentId, s.subjectId, s.id, now)])
  }

  /** The decision once the fields are resolved. Every message corresponds
      to exactly one case: a resolution failure, expiry, an existing record,
      or success, which appends exactly one record stamped now and names
      the field that was used. */
  function Decide(ledger: Ledger, res: Resolution, studentId: nat, now: int): (r: Response)
    ensures r.outcome == NoData <==> res.Blank? || res.UnknownSession?
    ensures r.outcome == InvalidQr <==> res.BadPayload?
    ensures r.outcome == InvalidCode <==> res.UnknownCode?
    ensures r.outcome == Expired <==> res.Resolved? && IsExpired(res.session, now)
    ensures r.outcome == AlreadyMarked <==>
              res.Resolved? && !IsExpired(res.session, now) && HasRecord(ledger, studentId, res.session.id)
    ensures r.outcome.IsMarked() <==>
              res.Resolved? && !IsExpired(res.session, now) && !HasRecord(ledger, studentId, res.session.id)
    ensures r.outcome.IsMarked() ==>
              && r.ledger == ledger + [Record(studentId, res.session.subjectId, res.session.id, now)]
              && (r.outcome == QrMarked <==> res.channel == ByQr)
    ensures !r.outcome.IsMarked() ==> r.ledger == ledger
  {
    match res
    case Blank => Response(NoData, ledger)
    case BadPayload => Response(InvalidQr, ledger)
    case UnknownSession => Response(NoData, ledger)
    case UnknownCode => Response(InvalidCode, ledger)
    case Resolved(s, channel) =>
      Admit(ledger, s, studentId, now, if channel == ByQr then QrMarked else CodeMarked)
  }

  /** A resolved session is one of the stored sessions. */
  lemma ResolvedIsStored(store: Store, codeField: string, qrField: string)
    ensures var res := Resolve(store, codeField, qrField);
            res.Resolved? ==> exists i :: 0 <= i < |store| && store[i] == res.session
  {
    var res := Resolve(store, codeField, qrField);
    if !res.Resolved? {
    } else if res.channel == ByQr {
      var id := ScannedId(qrField).value;
      assert FirstWithId(store, res.session, id);
    } else {
      assert FirstWithCode(store, res.session, Trim(codeField));
    }
  }

  /** mark_attendance for the logged-in student at time now. The ledger
      changes only on a marked outcome, and then by one record for this
      student, stamped now, for a stored unexpired session the student had
      no record for, carrying that session's subject. */
  function CheckIn(store: Store, ledger: Ledger, studentId: nat, codeField: string, qrField: string, now: int): (r: Response)
    ensures !r.outcome.IsMarked() ==> r.ledger == ledger
    ensures r.outcome.IsMarked() ==> |r.ledger| == |ledger| + 1 && r.ledger[..|ledger|] == ledger
    ensures r.outcome.IsMarked() ==>
              var rec := r.ledger[|ledger|];
              && rec.studentId == studentId
              && rec.markedAt == now
              && !HasRecord(ledger, studentId, rec.sessionId)
              && Backed(store, rec)
  {
    var res := Resolve(store, codeField, qrField);
    if res.Resolved? then
      ResolvedIsStored(store, codeField, qrField);
      Decide(ledger, res, studentId, now)
    else
      Decide(ledger, res, studentId, now)
  }

  /** One check-in never creates a second record for a (student, session)
      pair. */
  lemma CheckInPreservesUnique(store: Store, ledger: Ledger, studentId: nat, codeField: string, qrField: string, now: int)
    requires Unique(ledger)
    ensures Unique(CheckIn(store, ledger, studentId, codeField, qrField, now).ledger)
  {
    var r := CheckIn(store, ledger, studentId, codeField, qrField, now);
    if r.outcome.IsMarked() {
      assert r.ledger == ledger + [r.ledger[|ledger|]];
      AppendPreservesUnique(ledger, r.ledger[|ledger|]);
    }
  }

  /** A non-blank QR field decides the check-in on its own: the code field is
      ignored and no code-path outcome can arise. */
  lemma QrTakesPrecedence(store: Store, ledger: Ledger, studentId: nat, code1: string, code2: string, qrField: string, now: int)
    requires Trim(qrField) != []
    ensures CheckIn(store, ledger, studentId, code1, qrField, now) == CheckIn(store, ledger, studentId, code2, qrField, now)
    ensures var o := CheckIn(store, ledger, studentId, code1, qrField, now).outcome;
            o != CodeMarked && o != InvalidCode
  {
    assert Resolve(store, code1, qrField) == Resolve(store, code2, qrField);
    assert CheckIn(store, ledger, studentId, code1, qrField, now)
        == Decide(ledger, Resolve(store, code1, qrField), studentId, now);
  }

  /** The code field is consulted only when the QR field is blank, and a
      blank QR field behaves as an absent one. */
  lemma CodeWhenQrBlank(store: Store, ledger: Ledger, studentId: nat, codeField: string, qrField: string, now: int)
    requires Trim(qrField) == []
    ensures CheckIn(store, ledger, studentId, codeField, qrField, now) == CheckIn(store, ledger, studentId, codeField, [], now)
    ensures var o := CheckIn(store, ledger, studentId, codeField, qrField, now).outcome;
            o != QrMarked && o != InvalidQr
  {
    var res := Resolve(store, codeField, qrField);
    assert Trim([]) == [];
    assert res == Resolve(store, codeField, []);
    assert CheckIn(store, ledger, studentId, codeField, qrField, now) == Decide(ledger, res, studentId, now);
    assert CheckIn(store, ledger, studentId, codeField, [], now) == Decide(ledger, res, studentId, now);
    assert !res.BadPayload? && !(res.Resolved? && res.channel == ByQr);
  }

  /** "No data provided" arises in two ways: both fields blank, or a payload
      that decodes to a session id no stored session has (the QR branch falls
      through to the final message instead of reporting an error). */
  lemma NoDataIff(store: Store, ledger: Ledger, studentId: nat, codeField: string, qrField: string, now: int)
    ensures CheckIn(store, ledger, studentId, codeField, qrField, now).outcome == NoData
            <==> (Trim(qrField) == [] && Trim(codeField) == [])
                 || (Trim(qrField) != [] && ScannedId(qrField).Some?
                     && NoSessionWithId(store, ScannedId(qrField).value))
  {
    assert CheckIn(store, ledger, studentId, codeField, qrField, now)
        == Decide(ledger, Resolve(store, codeField, qrField), studentId, now);
  }

  /** "Invalid QR content" exactly when the non-blank QR field fails to
      decode or names an id beyond SQLite's integer range. */
  lemma InvalidQrIff(store: Store, ledger: Ledger, studentId: nat, codeField: string, qrField: string, now: int)
    ensures CheckIn(store, ledger, studentId, codeField, qrField, now).outcome == InvalidQr
            <==> Trim(qrField) != [] && (Decode(Trim(qrField)).Err? || Decode(Trim(qrField)).value.sessionId > SqliteIntMax)
  {
    assert CheckIn(store, ledger, studentId, codeField, qrField, now)
        == Decide(ledger, Resolve(store, codeField, qrField), studentId, now);
  }

  /** "Invalid code" exactly when the QR field is blank and no session has
      the stripped code. */
  lemma InvalidCodeIff(store: Store, ledger: Ledger, studentId: nat, codeField: string, qrField: string, now: int)
    ensures CheckIn(store, ledger, studentId, codeField, qrField, now).outcome == InvalidCode
            <==> Trim(qrField) == [] && Trim(codeField) != [] && NoSessionWithCode(store, Trim(codeField))
  {
    assert CheckIn(store, ledger, studentId, codeField, qrField, now)
        == Decide(ledger, Resolve(store, codeField, qrField), studentId, now);
  }

  /** A resolved session is refused as expired exactly when its expiry lies
      strictly before now, whatever the ledger holds; an expiry equal to now
      is still accepted and a session without expiry never expires. */
  lemma ExpiredIff(store: Store, ledger: Ledger, studentId: nat, codeField: string, qrField: string, now: int)
    ensures var res := Resolve(store, codeField, qrField);
            CheckIn(store, ledger, studentId, codeField, qrField, now).outcome == Expired
            <==> res.Resolved? && res.session.expiresAt.Some? && res.session.expiresAt.value < now
  {
    assert CheckIn(store, ledger, studentId, codeField, qrField, now)
        == Decide(ledger, Resolve(store, codeField, qrField), studentId, now);
  }

  /** "Already marked" exactly when the resolved session is unexpired and
      the student already has a record for it. */
  lemma AlreadyMarkedIff(store: Store, ledger: Ledger, studentId: nat, codeField: string, qrField: string, now: int)
    ensures var res := Resolve(store, codeField, qrField);
            CheckIn(store, ledger, studentId, codeField, qrField, now).outcome == AlreadyMarked
            <==> res.Resolved? && !IsExpired(res.session, now) && HasRecord(ledger, studentId, res.session.id)
  {
    assert CheckIn(store, ledger, studentId, codeField, qrField, now)
        == Decide(ledger, Resolve(store, codeField, qrField), studentId, now);
  }

  /** A check-in succeeds exactly when the resolved session is unexpired and
      the student has no record for it; it then appends the one record
      (student, session's subject, session id, now), and the message names
      the field that was used. */
  lemma MarkedIff(store: Store, ledger: Ledger, studentId: nat, codeField: string, qrField: string, now: int)
    ensures var res := Resolve(store, codeField, qrField);
            CheckIn(store, ledger, studentId, codeField, qrField, now).outcome.IsMarked()
            <==> res.Resolved? && !IsExpired(res.session, now) && !HasRecord(ledger, studentId, res.session.id)
    ensures var res := Resolve(store, codeField, qrField);
            var r := CheckIn(store, ledger, studentId, codeField, qrField, now);
            r.outcome.IsMarked() ==>
              && r.ledger == ledger + [Record(studentId, res.session.subjectId, res.session.id, now)]
              && (r.outcome == QrMarked <==> res.channel == ByQr)
  {
    assert CheckIn(store, ledger, studentId, codeField, qrField, now)
        == Decide(ledger, Resolve(store, codeField, qrField), studentId, now);
  }

  /** Submitting the same check-in again right away changes nothing: after a
      success the repeat is "already marked", and any other outcome repeats. */
  lemma CheckInIdempotent(store: Store, ledger: Ledger, studentId: nat, codeField: string, qrField: string, now: int)
    ensures var r1 := CheckIn(store, ledger, studentId, codeField, qrField, now);
            var r2 := CheckIn(store, r1.ledger, studentId, codeField, qrField, now);
            && r2.ledger == r1.ledger
            && (r1.outcome.IsMarked() ==> r2.outcome == AlreadyMarked)
            && (!r1.outcome.IsMarked() ==> r2.outcome == r1.outcome)
  {
    var res := Resolve(store, codeField, qrField);
    var r1 := CheckIn(store, ledger, studentId, codeField, qrField, now);
    assert r1 == Decide(ledger, res, studentId, now);
    assert CheckIn(store, r1.ledger, studentId, codeField, qrField, now) == Decide(r1.ledger, res, studentId, now);
    if r1.outcome.IsMarked() {
      assert IsFor(r1.ledger[|ledger|], studentId, res.session.id);
      assert HasRecord(r1.ledger, studentId, res.session.id);
    }
  }

  /** A well-formed code has no whitespace to strip. */
  lemma TrimValidCode(code: string)
    requires ValidCode(code)
    ensures Trim(code) == code
  {
    assert IsCodeChar(code[0]) && IsCodeChar(code[|code| - 1]);
    TrimUnchanged(code);
  }

  /** Scanning the QR rendered for a stored session with a well-formed code
      resolves to that very session (ids being distinct), whatever the code
      field holds. */
  lemma ScanResolves(store: Store, i: nat, codeField: string)
    requires UniqueIds(store) && i < |store| && ValidCode(store[i].code) && store[i].id <= SqliteIntMax
    ensures Resolve(store, codeField, Encode(store[i])) == Resolved(store[i], ByQr)
  {
    var s := store[i];
    var qr := Encode(s);
    assert qr[0] == 's' && qr[|qr| - 1] == s.code[|s.code| - 1];
    TrimUnchanged(qr);
    assert ';' !in s.code by {
      assert forall k :: 0 <= k < |s.code| ==> IsCodeChar(s.code[k]);
    }
    DecodeEncode(s);
    FindByIdStored(store, i);
  }

  /** Typing the code of a stored session with the QR field blank resolves
      to the oldest session holding that code. */
  lemma TypedCodeResolves(store: Store, i: nat, codeField: string)
    requires i < |store| && Trim(codeField) == store[i].code && store[i].code != []
    requires forall j :: 0 <= j < i ==> store[j].code != store[i].code
    ensures Resolve(store, codeField, []) == Resolved(store[i], ByCode)
  {
    assert Trim([]) == [];
    assert !NoSessionWithCode(store, store[i].code);
    var r := FindByCode(store, store[i].code);
    var k :| 0 <= k < |store| && store[k] == r.value && r.value.code == store[i].code
             && forall j :: 0 <= j < k ==> store[j].code != store[i].code;
    assert k == i;
  }
}

=== FILE: wrappers.dfy ===
/** Option and Result datatypes shared by the attendance modules. */
module Wrappers {

  /** A value that may be absent: a missing row, a missing dictionary key. */
  datatype Option<+T> = None | Some(value: T)

  /** A value or the reason it could not be produced. */
  datatype Result<+T, +E> = Ok(value: T) | Err(error: E)
}
